=== FILE: README.md ===
# Gallery activity feed and pagination, modelled in Dafny

This project models the two pieces of logic in the photo gallery web app that
have invariants worth stating:

- **The global activity feed** (`feedItems` in `app/feed/page.tsx`). It takes
  the latest query snapshot, which may not have arrived yet. It tags every
  reaction `'reaction'` and every comment `'comment'`, puts the reactions
  before the comments, and sorts newest first with
  `sort((a, b) => b.timestamp - a.timestamp)`. `Array.prototype.sort` is
  stable (section 23.1.3.30 of ECMA-262, 2023 edition), so entries with equal
  timestamps keep the order they had before sorting. Each entry also shows an
  actor label and links to its image in the gallery.
- **The gallery page** (`app/gallery/page.tsx`). Its state is a page number,
  a loading flag and the photos on show. Previous and Next change the page.
  The fetch started on every page change either shows a generated mock page
  (when no Unsplash key is configured), shows the list result, or leaves the
  photos alone. In every case loading ends.

Modules and files:

| file | module | contents |
|---|---|---|
| `optional.dfy` | `Optional` | `Option`, for the parts of a snapshot that may be missing |
| `records.dfy` | `Records` | the `Reaction` and `Comment` record shapes of `lib/instantdb.ts` |
| `text.dfy` | `Text` | how `${n}` renders an integer and how to parse it back |
| `activity.dfy` | `Activity` | `FeedItem`, tagging, the actor label and the image link |
| `time_order.dfy` | `TimeOrder` | newest-first order, stability (`Ties`), and a stable insertion sort |
| `feed.dfy` | `Feed` | the feed itself and its properties |
| `photos.dfy` | `Photos` | the photo shape and the mock page generator |
| `gallery.dfy` | `Gallery` | the page state, the buttons, fetch outcomes and event sequences |

Stability is stated through `TimeOrder.Ties(s, t)`, the entries of `s` with
timestamp `t` in their order in `s`. A stable descending sort is a newest-first
arrangement with the same `Ties` as its input at every `t`.
`TimeOrder.StableSortUnique` shows that this fixes the result completely, so
the feed is the same whatever stable algorithm the JavaScript engine uses.

## Model

| member | source | states |
|---|---|---|
| `Feed.ReactionsIn` | app/feed/page.tsx:19 | a missing reactions collection reads as none, a present one as itself (`data.reactions \|\| []`) |
| `Feed.CommentsIn` | app/feed/page.tsx:20 | a missing comments collection reads as none, a present one as itself (`data.comments \|\| []`) |
| `Activity.TagReactions` | app/feed/page.tsx:19 | every reaction becomes one entry tagged `reaction`, in input order, carrying the record unchanged |
| `Activity.TagComments` | app/feed/page.tsx:20 | every comment becomes one entry tagged `comment`, in input order, carrying the record unchanged |
| `Activity.TagRoundTrip` | app/feed/page.tsx:19-20 | dropping the tags gives back exactly the reactions and exactly the comments; no comment hides among tagged reactions or the reverse |
| `Activity.TagMembership` | app/feed/page.tsx:19-20 | an entry is among the tagged reactions iff it is a reaction entry for one of the input reactions, and likewise for comments |
| `Activity.ActorLabel` | app/feed/page.tsx:63 | a comment entry names its stored `userName`; a reaction entry shows `User ` and then the first min(4, length) characters of the user id |
| `Activity.ImageLink` | app/feed/page.tsx:53 | the link is a gallery deep link whose `photoId` reads back as the entry's image id |
| `Activity.ImageLinkInjective` | app/feed/page.tsx:53 | entries about different images never share a link |
| `TimeOrder.Insert` | app/feed/page.tsx:21 | one insertion step adds exactly the new item: one more element, same multiset plus the item |
| `TimeOrder.InsertSorted` | app/feed/page.tsx:21 | inserting into a newest-first sequence keeps it newest first |
| `TimeOrder.InsertTies` | app/feed/page.tsx:21 | the inserted item lands after every item already tied with it |
| `TimeOrder.StableSortDesc` | app/feed/page.tsx:21 | the result is newest first, a permutation of the input, and keeps every group of equal timestamps in input order |
| `TimeOrder.StableSortUnique` | app/feed/page.tsx:21 | two newest-first sequences with the same ties at every timestamp are equal, so a stable sort's result is unique |
| `TimeOrder.FindSlot` | app/feed/page.tsx:21 | the insertion point found by scanning back splits the sorted prefix into items at least as new as the item and items strictly older |
| `TimeOrder.InsertInto` | app/feed/page.tsx:21 | splicing an item in at the slot the scan finds is exactly the functional insertion step |
| `TimeOrder.SortByTimestampDesc` | app/feed/page.tsx:21 | the imperative insertion sort is a stable newest-first sort and equals the functional one |
| `Feed.FeedItems` | app/feed/page.tsx:17-22 | no data gives an empty feed; otherwise one entry per reaction and per comment (a missing collection counts as empty), a permutation of the tagged concatenation, adjacent entries never older-before-newer, and each group of equal timestamps lists its reactions then its comments in snapshot order |
| `Feed.FeedEntriesAreRecords` | app/feed/page.tsx:19-21 | an entry is in the feed iff it is a snapshot reaction tagged `reaction` or a snapshot comment tagged `comment` |
| `Feed.FeedKeepsEveryRecord` | app/feed/page.tsx:19-21 | the feed's reactions are the snapshot's reactions and its comments the snapshot's comments, with the same multiplicities |
| `Feed.FeedTiesListReactionsFirst` | app/feed/page.tsx:21 | of two entries with the same timestamp, a comment never comes before a reaction |
| `Feed.AnyStableSortGivesTheFeed` | app/feed/page.tsx:21 | any stable newest-first arrangement of the tagged records is exactly the feed |
| `Feed.ComputeFeed` | app/feed/page.tsx:17-22 | computing the feed with the imperative insertion sort gives the feed, a stable newest-first sort of the tagged records |
| `Photos.MockId` | app/gallery/page.tsx:42 | `mock-{page}-{i}` decodes back to exactly that page and index |
| `Photos.PicsumUrl` | app/gallery/page.tsx:44-45 | a picsum URL starts with the seed prefix, and its seed segment reads back as the seed whatever size path follows |
| `Photos.MockPage` | app/gallery/page.tsx:41-53 | a mock page holds twelve photos; the `i`-th has the id `mock-{page}-{i}` (it decodes to that page and index) and both its URLs carry the seed `page * 100 + i`, so the ids are pairwise distinct |
| `Photos.MockIdInjective` | app/gallery/page.tsx:42 | `mock-{page}-{i}` determines both the page and the index |
| `Photos.MockPagesDisjoint` | app/gallery/page.tsx:42 | no mock id of one page occurs on another page |
| `Photos.MockSeedInjective` | app/gallery/page.tsx:44-45 | the seed `page * 100 + i` determines the page and the index while the index is below 100 |
| `Photos.PicsumSeedRoundTrip` | app/gallery/page.tsx:44-45 | the seed is read back from a picsum seed URL whatever size follows it |
| `Photos.MockPhoto` | app/gallery/page.tsx:42-52 | a mock photo's id reads back as its page and index, and its regular and small URLs both carry the seed `page * 100 + i` |
| `Photos.MockPicturesDistinct` | app/gallery/page.tsx:44-45 | two different mock photos, on one page or on two, never share a regular or a small URL |
| `Gallery.PreviousDisabled` | app/gallery/page.tsx:134 | Previous is disabled on the first page and while loading, so an enabled Previous always goes back a whole page without reaching the `Math.max` clamp |
| `Gallery.NextDisabled` | app/gallery/page.tsx:142 | Next is disabled exactly while a fetch is in flight (there is no last page), and an enabled Next moves forward |
| `Gallery.Previous` | app/gallery/page.tsx:133 | Previous leaves a page of at least 1, goes back one page from any page above 1, and touches nothing else |
| `Gallery.Next` | app/gallery/page.tsx:141 | Next advances exactly one page and touches nothing else |
| `Gallery.ClickPrevious` | app/gallery/page.tsx:132-134 | a click on a disabled Previous (first page or loading) changes nothing; an enabled one goes back exactly one page |
| `Gallery.ClickNext` | app/gallery/page.tsx:140-142 | a click on Next while a fetch is in flight changes nothing; an enabled one advances exactly one page |
| `Gallery.StartFetch` | app/gallery/page.tsx:34 | starting a fetch sets loading and keeps the page and the photos |
| `Gallery.FinishFetch` | app/gallery/page.tsx:36-74 | a finished fetch always ends loading and never moves the page; without a key the photos become the twelve mock photos of the requested page; a success replaces them with the results; any other result or a thrown error keeps them |
| `Gallery.Step` | app/gallery/page.tsx:31-78 | fetch events never change the page; clicks never change loading or the photos |
| `Gallery.RunKeepsPageAtLeastOne` | app/gallery/page.tsx:133 | from a page of at least 1, no sequence of clicks and fetches reaches a page below 1 |
| `Gallery.PageNeverBelowOne` | app/gallery/page.tsx:29 | the page starts at 1 and stays at least 1 after any sequence of events |
| `Gallery.FetchesKeepPage` | app/gallery/page.tsx:32-75 | a sequence of fetch events alone leaves the page where it was |
| `Gallery.NextThenPrevious` | app/gallery/page.tsx:133-142 | clicking Next while idle enables Previous, and clicking it then returns to the same state |
| `Gallery.PreviousThenNext` | app/gallery/page.tsx:133-142 | clicking an enabled Previous leaves Next enabled, and clicking it then returns to the same state |
| `Gallery.FinishedFetchEnablesButtons` | app/gallery/page.tsx:72-74 | after a fetch finishes Next is enabled, and Previous is enabled exactly when the page is not the first |

## Left out

- The realtime store: `init`, `db.useQuery` and its subscription. The query result is an input, `Option<Snapshot>`. The `isLoading` and `error` fields do not feed into `feedItems`, and the loading screen is presentation.
- Presentation in the feed: the empty-feed message, the icon and verb per entry, the comment text box, the animation delays (`index * 0.05`, floating point) and `toLocaleTimeString` (locale).
- Gallery.Next: the page is a JavaScript number, a 64-bit float; the model's page is an unbounded integer, so `p + 1` is exact here but not in the program once `p` reaches 2^53.
- Photos.MockPicturesDistinct: `page * 100 + i` is computed in floating point, exactly only while it stays below 2^53. Seeds, and so the picture URLs, are exact and distinct for pages up to 90071992547409; beyond that the program can round two seeds together, which the unbounded model does not.
- Photos.MockSeedInjective: holds of the program's seeds only for pages up to 90071992547409, for the same rounding reason.
- Timestamps are integers. JavaScript numbers could in principle be fractional or `NaN`, which would make the comparator inconsistent. Stored timestamps are millisecond counts, for which a `number` is exact.
- `data.reactions || []` also replaces other falsy values. The model treats only an absent collection that way, the only falsy value the store returns.
- Activity.ActorLabel: `slice(0, 4)` counts UTF-16 code units, the model counts characters. They differ only for ids with characters outside the Basic Multilingual Plane.
- Activity.ImageLink: the template literal inserts the image id without URL encoding. `LinkedPhotoId` reads the raw text after `photoId=`. How a browser would split a query string containing `&` or `#` is not modelled.
- The gallery's I/O: the `process.env` key check is the `hasAccessKey` input, the Unsplash `photos.list` call is the `ListOutcome` input, and the 800 ms delay, `window.scrollTo` and console logging are left out. The `as unknown as Photo[]` cast means a success may hold any photos, so no shape check is modelled.
- React scheduling: the effect runs `fetchPhotos` on mount and on every page change. The model lets the fetch events of `Gallery.Run` interleave with clicks in any order. This covers overlapping fetches, each completing for the page it captured (`requestedPage`).
- Rendering of the photo grid and the pagination controls beyond their disabled predicates.
- `app/page.tsx`: a static landing page with no logic.
- Reaction toggling, posting and deleting comments, the persisted user identity and deep-link resolution. None of them is implemented in the files modelled here.
- A record-id tie-break in the feed's sort: the code has none, so tied entries keep concatenation order.

=== FILE: activity.dfy ===
/**
 One entry of the global activity feed (app/feed/page.tsx): a reaction or a
 comment record tagged with its kind, and the two strings each entry shows,
 the actor label and the link to the image.
 */
module Activity {
  import opened Optional
  import opened Records

  /** A record together with its `type` tag, `'reaction'` or `'comment'`. */
  datatype FeedItem = ReactionItem(reaction: Reaction) | CommentItem(comment: Comment) {

    /** The `type` field the feed adds to every record. */
    function Type(): string {
      if ReactionItem? then "reaction" else "comment"
    }

    function Timestamp(): int {
      if ReactionItem? then reaction.timestamp else comment.timestamp
    }

    function ImageId(): string {
      if ReactionItem? then reaction.imageId else comment.imageId
    }
  }

  /** Every reaction tagged `'reaction'`, in input order, with its fields untouched. */
  function TagReactions(rs: seq<Reaction>): (r: seq<FeedItem>)
    ensures |r| == |rs|
    ensures forall i :: 0 <= i < |r| ==> r[i].Type() == "reaction" && r[i].reaction == rs[i]
  {
    if |rs| == 0 then [] else [ReactionItem(rs[0])] + TagReactions(rs[1..])
  }

  /** Every comment tagged `'comment'`, in input order, with its fields untouched. */
  function TagComments(cs: seq<Comment>): (r: seq<FeedItem>)
    ensures |r| == |cs|
    ensures forall i :: 0 <= i < |r| ==> r[i].Type() == "comment" && r[i].comment == cs[i]
  {
    if |cs| == 0 then [] else [CommentItem(cs[0])] + TagComments(cs[1..])
  }

  /** Tagging neither invents nor drops a record. */
  lemma TagMembership(rs: seq<Reaction>, cs: seq<Comment>, x: FeedItem)
    ensures x in TagReactions(rs) <==> x.ReactionItem? && x.reaction in rs
    ensures x in TagComments(cs) <==> x.CommentItem? && x.comment in cs
  {
    if x.ReactionItem? && x.reaction in rs {
      var i :| 0 <= i < |rs| && rs[i] == x.reaction;
      assert TagReactions(rs)[i] == x;
    }
    if x.CommentItem? && x.comment in cs {
      var i :| 0 <= i < |cs| && cs[i] == x.comment;
      assert TagComments(cs)[i] == x;
    }
  }

  /** The reaction records among some feed items, in order, with their tags dropped. */
  function ReactionsOf(items: seq<FeedItem>): seq<Reaction> {
    if |items| == 0 then []
    else (if items[0].ReactionItem? then [items[0].reaction] else []) + ReactionsOf(items[1..])
  }

  /** The comment records among some feed items, in order, with their tags dropped. */
  function CommentsOf(items: seq<FeedItem>): seq<Comment> {
    if |items| == 0 then []
    else (if items[0].CommentItem? then [items[0].comment] else []) + CommentsOf(items[1..])
  }

  lemma {:induction false} ReactionsOfAppend(a: seq<FeedItem>, b: seq<FeedItem>)
    ensures ReactionsOf(a + b) == ReactionsOf(a) + ReactionsOf(b)
    decreases |a|
  {
    if |a| > 0 {
      assert (a + b)[0] == a[0] && (a + b)[1..] == a[1..] + b;
      ReactionsOfAppend(a[1..], b);
    } else {
      assert a + b == b;
    }
  }

  lemma {:induction false} CommentsOfAppend(a: seq<FeedItem>, b: seq<FeedItem>)
    ensures CommentsOf(a + b) == CommentsOf(a) + CommentsOf(b)
    decreases |a|
  {
    if |a| > 0 {
      assert (a + b)[0] == a[0] && (a + b)[1..] == a[1..] + b;
      CommentsOfAppend(a[1..], b);
    } else {
      assert a + b == b;
    }
  }

  /** Tagging loses nothing: dropping the tags again gives back the input. */
  lemma {:induction false} TagRoundTrip(rs: seq<Reaction>, cs: seq<Comment>)
    ensures ReactionsOf(TagReactions(rs)) == rs && CommentsOf(TagReactions(rs)) == []
    ensures CommentsOf(TagComments(cs)) == cs && ReactionsOf(TagComments(cs)) == []
    decreases |rs| + |cs|
  {
    if |rs| > 0 {
      TagRoundTrip(rs[1..], cs);
    }
    if |cs| > 0 {
      TagRoundTrip(rs, cs[1..]);
    }
  }

  /** How often `r` occurs among the reactions of `items` is how often its tagged item occurs. */
  lemma {:induction false} ReactionsOfCount(items: seq<FeedItem>, r: Reaction)
    ensures multiset(ReactionsOf(items))[r] == multiset(items)[ReactionItem(r)]
    decreases |items|
  {
    if |items| > 0 {
      ReactionsOfCount(items[1..], r);
      assert items == [items[0]] + items[1..];
    }
  }

  lemma {:induction false} CommentsOfCount(items: seq<FeedItem>, c: Comment)
    ensures multiset(CommentsOf(items))[c] == multiset(items)[CommentItem(c)]
    decreases |items|
  {
    if |items| > 0 {
      CommentsOfCount(items[1..], c);
      assert items == [items[0]] + items[1..];
    }
  }

  /** Rearranging feed items rearranges their reactions and their comments alike. */
  lemma PermutationKeepsRecords(a: seq<FeedItem>, b: seq<FeedItem>)
    requires multiset(a) == multiset(b)
    ensures multiset(ReactionsOf(a)) == multiset(ReactionsOf(b))
    ensures multiset(CommentsOf(a)) == multiset(CommentsOf(b))
  {
    forall r: Reaction
      ensures multiset(ReactionsOf(a))[r] == multiset(ReactionsOf(b))[r]
    {
      ReactionsOfCount(a, r);
      ReactionsOfCount(b, r);
    }
    forall c: Comment
      ensures multiset(CommentsOf(a))[c] == multiset(CommentsOf(b))[c]
    {
      CommentsOfCount(a, c);
      CommentsOfCount(b, c);
    }
  }

  function Min(a: int, b: int): int {
    if a <= b then a else b
  }

  /**
   Who the entry names: a comment shows its stored display name, a reaction
   shows "User " and the first four characters of the user id (`slice(0, 4)`,
   which takes fewer when the id is shorter).
   */
  function ActorLabel(item: FeedItem): (actor: string)
    ensures item.CommentItem? ==> actor == item.comment.userName
    ensures item.ReactionItem? ==>
      && "User " <= actor
      && |actor| == 5 + Min(4, |item.reaction.userId|)
      && actor[5..] <= item.reaction.userId
  {
    if item.Type() == "comment" then item.comment.userName
    else "User " + item.reaction.userId[..Min(4, |item.reaction.userId|)]
  }

  /** The route and query key of the gallery's deep link. */
  const GalleryPhotoRoute := "/gallery?photoId="

  /** The image id a gallery deep link carries, if the string is one. */
  function LinkedPhotoId(link: string): Option<string> {
    if GalleryPhotoRoute <= link then Some(link[|GalleryPhotoRoute|..]) else None
  }

  /** Every entry links to the gallery with its image id as `photoId`; the id is read back unchanged. */
  function ImageLink(item: FeedItem): (link: string)
    ensures LinkedPhotoId(link) == Some(item.ImageId())
  {
    GalleryPhotoRoute + item.ImageId()
  }

  /** Entries about different images link to different places. */
  lemma ImageLinkInjective(a: FeedItem, b: FeedItem)
    requires ImageLink(a) == ImageLink(b)
    ensures a.ImageId() == b.ImageId()
  {
    assert LinkedPhotoId(ImageLink(a)) == Some(a.ImageId());
  }
}

=== FILE: feed.dfy ===
/**
 The global activity feed (the `feedItems` memo of app/feed/page.tsx): every
 reaction and every comment of the latest query snapshot, tagged with its
 kind, reactions before comments, then sorted newest first by a stable sort.
 */
module Feed {
  import opened Optional
  import opened Records
  import opened Activity
  import opened TimeOrder

  /**
   The query result for `{ reactions: {}, comments: {} }`. Either collection
   may be missing from the result.
   */
  datatype Snapshot = Snapshot(reactions: Option<seq<Reaction>>, comments: Option<seq<Comment>>)

  /** The reactions of a snapshot; a missing collection counts as none (`data.reactions || []`). */
  function ReactionsIn(d: Snapshot): (rs: seq<Reaction>)
    ensures d.reactions.None? ==> rs == []
    ensures d.reactions.Some? ==> rs == d.reactions.value
  {
    d.reactions.GetOr([])
  }

  /** The comments of a snapshot; a missing collection counts as none (`data.comments || []`). */
  function CommentsIn(d: Snapshot): (cs: seq<Comment>)
    ensures d.comments.None? ==> cs == []
    ensures d.comments.Some? ==> cs == d.comments.value
  {
    d.comments.GetOr([])
  }

  /** The tagged records before sorting: all reactions, then all comments, each in snapshot order. */
  function Tagged(d: Snapshot): seq<FeedItem> {
    TagReactions(ReactionsIn(d)) + TagComments(CommentsIn(d))
  }

  /**
   The feed for the current query data (`undefined` while nothing has arrived):
   one entry per record, newest first, with the entries of one timestamp in
   concatenation order, that is the tied reactions in snapshot order followed
   by the tied comments in snapshot order.
   */
  function FeedItems(data: Option<Snapshot>): (feed: seq<FeedItem>)
    ensures data.None? ==> feed == []
    ensures data.Some? ==> |feed| == |ReactionsIn(data.value)| + |CommentsIn(data.value)|
    ensures data.Some? ==> multiset(feed) == multiset(Tagged(data.value))
    ensures forall i :: 0 <= i < |feed| - 1 ==> feed[i].Timestamp() >= feed[i + 1].Timestamp()
    ensures data.Some? ==> forall t :: (Ties(feed, t) ==
      Ties(TagReactions(ReactionsIn(data.value)), t) + Ties(TagComments(CommentsIn(data.value)), t))
  {
    match data
    case None => []
    case Some(d) =>
      var feed := StableSortDesc(Tagged(d));
      assert forall t :: (Ties(Tagged(d), t) ==
        Ties(TagReactions(ReactionsIn(d)), t) + Ties(TagComments(CommentsIn(d)), t)) by {
        forall t ensures Ties(Tagged(d), t) ==
          Ties(TagReactions(ReactionsIn(d)), t) + Ties(TagComments(CommentsIn(d)), t) {
          TiesAppend(TagReactions(ReactionsIn(d)), TagComments(CommentsIn(d)), t);
        }
      }
      feed
  }

  /** A feed entry is a record of the snapshot under its own tag, and every record appears. */
  lemma FeedEntriesAreRecords(d: Snapshot, x: FeedItem)
    ensures x in FeedItems(Some(d)) <==>
      (x.ReactionItem? && x.reaction in ReactionsIn(d)) || (x.CommentItem? && x.comment in CommentsIn(d))
  {
    var feed := FeedItems(Some(d));
    assert x in feed <==> x in multiset(feed);
    assert x in Tagged(d) <==> x in multiset(Tagged(d));
    TagMembership(ReactionsIn(d), CommentsIn(d), x);
  }

  /**
   Nothing is dropped or duplicated: the reactions shown are exactly the
   snapshot's reactions, and the comments shown exactly its comments, each as
   many times as it occurs there.
   */
  lemma FeedKeepsEveryRecord(d: Snapshot)
    ensures multiset(ReactionsOf(FeedItems(Some(d)))) == multiset(ReactionsIn(d))
    ensures multiset(CommentsOf(FeedItems(Some(d)))) == multiset(CommentsIn(d))
    ensures |ReactionsOf(FeedItems(Some(d)))| == |ReactionsIn(d)|
    ensures |CommentsOf(FeedItems(Some(d)))| == |CommentsIn(d)|
  {
    var rs := TagReactions(ReactionsIn(d));
    var cs := TagComments(CommentsIn(d));
    PermutationKeepsRecords(FeedItems(Some(d)), Tagged(d));
    ReactionsOfAppend(rs, cs);
    CommentsOfAppend(rs, cs);
    TagRoundTrip(ReactionsIn(d), CommentsIn(d));
    assert ReactionsOf(Tagged(d)) == ReactionsIn(d);
    assert CommentsOf(Tagged(d)) == CommentsIn(d);
  }

  /** All reactions come before all comments. */
  predicate ReactionsFirst(s: seq<FeedItem>) {
    forall i, j :: 0 <= i < j < |s| && s[i].CommentItem? ==> s[j].CommentItem?
  }

  /** Among entries with the same timestamp, no comment comes before a reaction. */
  predicate ReactionsFirstOnTies(s: seq<FeedItem>) {
    forall i, j :: 0 <= i < j < |s| && s[i].Timestamp() == s[j].Timestamp() && s[i].CommentItem? ==>
      s[j].CommentItem?
  }

  lemma {:induction false} TiesContains(s: seq<FeedItem>, k: nat)
    requires k < |s|
    ensures s[k] in Ties(s, s[k].Timestamp())
    decreases k
  {
    if k > 0 {
      TiesContains(s[1..], k - 1);
    }
  }

  /** When every group of ties lists reactions first, so does the whole sequence. */
  lemma {:induction false} ReactionsFirstFromTies(s: seq<FeedItem>)
    requires forall t :: ReactionsFirst(Ties(s, t))
    ensures ReactionsFirstOnTies(s)
    decreases |s|
  {
    if |s| > 0 {
      var tail := s[1..];
      forall t ensures ReactionsFirst(Ties(tail, t)) {
        var h := if s[0].Timestamp() == t then [s[0]] else [];
        assert Ties(s, t) == h + Ties(tail, t);
        var u := Ties(s, t);
        forall i, j | 0 <= i < j < |Ties(tail, t)| && Ties(tail, t)[i].CommentItem?
          ensures Ties(tail, t)[j].CommentItem?
        {
          assert u[i + |h|] == Ties(tail, t)[i] && u[j + |h|] == Ties(tail, t)[j];
        }
      }
      ReactionsFirstFromTies(tail);
      forall i, j | 0 <= i < j < |s| && s[i].Timestamp() == s[j].Timestamp() && s[i].CommentItem?
        ensures s[j].CommentItem?
      {
        if i > 0 {
          assert tail[i - 1] == s[i] && tail[j - 1] == s[j];
        } else {
          var t := s[0].Timestamp();
          var u := Ties(s, t);
          assert u == [s[0]] + Ties(tail, t);
          TiesContains(tail, j - 1);
          var k :| 0 <= k < |Ties(tail, t)| && Ties(tail, t)[k] == s[j];
          assert u[0] == s[0] && u[k + 1] == s[j];
        }
      }
    }
  }

  /** Ties of tagged reactions are reactions; ties of tagged comments are comments. */
  lemma {:induction false} TiesOfTagged(rs: seq<Reaction>, cs: seq<Comment>, t: int)
    ensures forall x :: x in Ties(TagReactions(rs), t) ==> x.ReactionItem?
    ensures forall x :: x in Ties(TagComments(cs), t) ==> x.CommentItem?
    decreases |rs| + |cs|
  {
    if |rs| > 0 {
      TiesOfTagged(rs[1..], cs, t);
    }
    if |cs| > 0 {
      TiesOfTagged(rs, cs[1..], t);
    }
  }

  /** Reactions then comments stays so after keeping only the entries of one timestamp. */
  lemma TaggedTiesListReactionsFirst(rs: seq<Reaction>, cs: seq<Comment>, t: int)
    ensures ReactionsFirst(Ties(TagReactions(rs), t) + Ties(TagComments(cs), t))
  {
    var a := Ties(TagReactions(rs), t);
    var u := a + Ties(TagComments(cs), t);
    TiesOfTagged(rs, cs, t);
    assert forall k :: 0 <= k < |a| ==> u[k] in a && u[k].ReactionItem?;
    assert forall k :: |a| <= k < |u| ==> u[k] in Ties(TagComments(cs), t) && u[k].CommentItem?;
  }

  /**
   Stability, position by position: when two entries of the feed carry the
   same timestamp, a comment never precedes a reaction.
   */
  lemma FeedTiesListReactionsFirst(d: Snapshot)
    ensures ReactionsFirstOnTies(FeedItems(Some(d)))
  {
    var feed := FeedItems(Some(d));
    forall t ensures ReactionsFirst(Ties(feed, t)) {
      TaggedTiesListReactionsFirst(ReactionsIn(d), CommentsIn(d), t);
    }
    ReactionsFirstFromTies(feed);
  }

  /**
   The feed does not depend on the sorting algorithm: any newest-first
   arrangement of the tagged records that keeps every group of ties in
   concatenation order is the feed.
   */
  lemma AnyStableSortGivesTheFeed(d: Snapshot, arranged: seq<FeedItem>)
    requires IsStableSortDesc(Tagged(d), arranged)
    ensures arranged == FeedItems(Some(d))
  {
    StableSortUnique(arranged, FeedItems(Some(d)));
  }

  /** The feed the imperative insertion sort produces is the feed. */
  method ComputeFeed(data: Option<Snapshot>) returns (feed: seq<FeedItem>)
    ensures feed == FeedItems(data)
    ensures data.Some? ==> IsStableSortDesc(Tagged(data.value), feed)
  {
    match data
    case None =>
      feed := [];
    case Some(d) =>
      var tagged := Tagged(d);
      feed := SortByTimestampDesc(tagged);
  }
}

=== FILE: gallery.dfy ===
/**
 The gallery page's state (app/gallery/page.tsx): the current page number,
 whether a fetch is in flight, and the photos on show; the Previous and Next
 buttons; and how each way a fetch can end updates the state.
 The Unsplash call, the access-key check and the delays are not modelled as
 I/O: how a fetch ended is an input.
 */
module Gallery {
  import opened Photos

  datatype GalleryState = GalleryState(page: int, loading: bool, photos: seq<Photo>)

  /** Page 1, loading, no photos: the state before the first fetch completes. */
  const InitialState := GalleryState(1, true, [])

  /**
   Previous is disabled on the first page and while a fetch is in flight, so
   an enabled Previous always goes back a whole page: the `Math.max` clamp of
   its handler never comes into play.
   */
  predicate PreviousDisabled(s: GalleryState): (disabled: bool)
    ensures s.page == 1 ==> disabled
    ensures s.loading ==> disabled
    ensures !disabled && s.page >= 1 ==> Previous(s).page == s.page - 1 && Previous(s).page >= 1
  {
    s.page == 1 || s.loading
  }

  /** Next is disabled exactly while a fetch is in flight: there is no last page. */
  predicate NextDisabled(s: GalleryState): (disabled: bool)
    ensures s.loading ==> disabled
    ensures disabled ==> s.loading
    ensures !disabled ==> Next(s).page > s.page
  {
    s.loading
  }

  /** Previous's handler, `setPage(p => Math.max(1, p - 1))`. */
  function Previous(s: GalleryState): (r: GalleryState)
    ensures r.page >= 1
    ensures s.page > 1 ==> r.page == s.page - 1
    ensures s.page <= 1 ==> r.page == 1
    ensures r.loading == s.loading && r.photos == s.photos
  {
    s.(page := if s.page - 1 >= 1 then s.page - 1 else 1)
  }

  /** Next's handler, `setPage(p => p + 1)`. */
  function Next(s: GalleryState): (r: GalleryState)
    ensures r.page == s.page + 1
    ensures r.loading == s.loading && r.photos == s.photos
  {
    s.(page := s.page + 1)
  }

  /** A click on Previous: a disabled button does nothing. */
  function ClickPrevious(s: GalleryState): (r: GalleryState)
    ensures PreviousDisabled(s) ==> r == s
    ensures !PreviousDisabled(s) && s.page >= 1 ==> r.page == s.page - 1
    ensures r.loading == s.loading && r.photos == s.photos
  {
    if PreviousDisabled(s) then s else Previous(s)
  }

  /** A click on Next: a disabled button does nothing. */
  function ClickNext(s: GalleryState): (r: GalleryState)
    ensures s.loading ==> r == s
    ensures NextDisabled(s) ==> r == s
    ensures !NextDisabled(s) ==> r.page == s.page + 1
    ensures r.loading == s.loading && r.photos == s.photos
  {
    if NextDisabled(s) then s else Next(s)
  }

  /** How `unsplash.photos.list` answered: a success, some other result, or a thrown error. */
  datatype ListOutcome = Success(results: seq<Photo>) | NonSuccess | Thrown

  /** The start of `fetchPhotos`, run on mount and on every page change: `setLoading(true)`. */
  function StartFetch(s: GalleryState): (r: GalleryState)
    ensures r.loading
    ensures r.page == s.page && r.photos == s.photos
  {
    s.(loading := true)
  }

  /**
   The end of the `fetchPhotos` started for `requestedPage`. Without an access
   key it shows the mock page for that page; with one it shows the list
   result on success and keeps the old photos otherwise. In every case
   loading ends (the `finally` block) and the page is left alone.
   */
  function FinishFetch(s: GalleryState, requestedPage: int, hasAccessKey: bool, outcome: ListOutcome): (r: GalleryState)
    ensures !r.loading
    ensures r.page == s.page
    ensures !hasAccessKey ==> r.photos == MockPage(requestedPage) && |r.photos| == PerPage
    ensures hasAccessKey && outcome.Success? ==> r.photos == outcome.results
    ensures hasAccessKey && !outcome.Success? ==> r.photos == s.photos
  {
    if !hasAccessKey then
      s.(photos := MockPage(requestedPage), loading := false)
    else
      match outcome
      case Success(results) => s.(photos := results, loading := false)
      case NonSuccess => s.(loading := false)
      case Thrown => s.(loading := false)
  }

  /** Everything that can happen to the page's state. */
  datatype Event =
    | PreviousClicked
    | NextClicked
    | FetchStarted
    | FetchFinished(requestedPage: int, hasAccessKey: bool, outcome: ListOutcome)

  function Step(s: GalleryState, e: Event): (r: GalleryState)
    ensures e.FetchStarted? || e.FetchFinished? ==> r.page == s.page
    ensures e.PreviousClicked? || e.NextClicked? ==> r.loading == s.loading && r.photos == s.photos
  {
    match e
    case PreviousClicked => ClickPrevious(s)
    case NextClicked => ClickNext(s)
    case FetchStarted => StartFetch(s)
    case FetchFinished(p, key, outcome) => FinishFetch(s, p, key, outcome)
  }

  /** The state after a sequence of events, in order. */
  function Run(s: GalleryState, events: seq<Event>): GalleryState
    decreases |events|
  {
    if |events| == 0 then s else Run(Step(s, events[0]), events[1..])
  }

  /** No sequence of events takes the page below 1. */
  lemma {:induction false} RunKeepsPageAtLeastOne(s: GalleryState, events: seq<Event>)
    requires s.page >= 1
    ensures Run(s, events).page >= 1
    decreases |events|
  {
    if |events| > 0 {
      RunKeepsPageAtLeastOne(Step(s, events[0]), events[1..]);
    }
  }

  /** The page starts at 1 and never drops below it, whatever the user and the fetches do. */
  lemma PageNeverBelowOne(events: seq<Event>)
    ensures InitialState.page == 1
    ensures Run(InitialState, events).page >= 1
  {
    RunKeepsPageAtLeastOne(InitialState, events);
  }

  /** Fetches never move the page: only clicks do. */
  lemma {:induction false} FetchesKeepPage(s: GalleryState, events: seq<Event>)
    requires forall k :: 0 <= k < |events| ==> !events[k].PreviousClicked? && !events[k].NextClicked?
    ensures Run(s, events).page == s.page
    decreases |events|
  {
    if |events| > 0 {
      FetchesKeepPage(Step(s, events[0]), events[1..]);
    }
  }

  /** Next then Previous, both clicked while idle, comes back to the same state. */
  lemma NextThenPrevious(s: GalleryState)
    requires s.page >= 1 && !s.loading
    ensures !PreviousDisabled(ClickNext(s))
    ensures ClickPrevious(ClickNext(s)) == s
  {
  }

  /** Previous then Next, when Previous is enabled, comes back to the same state. */
  lemma PreviousThenNext(s: GalleryState)
    requires s.page >= 1 && !PreviousDisabled(s)
    ensures !NextDisabled(ClickPrevious(s))
    ensures ClickNext(ClickPrevious(s)) == s
  {
  }

  /**
   Once a fetch has finished, Next is enabled, and Previous is enabled
   exactly when the page is not the first.
   */
  lemma FinishedFetchEnablesButtons(s: GalleryState, requestedPage: int, hasAccessKey: bool, outcome: ListOutcome)
    ensures var r := FinishFetch(s, requestedPage, hasAccessKey, outcome);
      !NextDisabled(r) && (PreviousDisabled(r) <==> s.page == 1)
  {
  }
}

=== FILE: optional.dfy ===
/** The optional value used for the parts of a query snapshot that may be missing. */
module Optional {

  datatype Option<+T> = None | Some(value: T) {

    /** The wrapped value, or `default` when there is none (JavaScript's `x || default`). */
    function GetOr(default: T): T {
      match this
      case Some(v) => v
      case None => default
    }
  }
}

=== FILE: photos.dfy ===
/**
 The photo shape the gallery renders and the mock page it shows when no
 Unsplash access key is configured (app/gallery/page.tsx).
 */
module Photos {
  import opened Optional
  import opened Text

  datatype Urls = Urls(regular: string, small: string)

  datatype Author = Author(name: string, username: string, profileImageSmall: string)

  datatype Photo = Photo(id: string, urls: Urls, altDescription: Option<string>, user: Author)

  /** Photos per page, for the mock page and for the Unsplash request alike. */
  const PerPage := 12

  /** `mock-${page}-${i}`: an id that reads back as its page and its index. */
  function MockId(page: int, i: nat): (id: string)
    ensures DecodeMockId(id) == Some((page, i as int))
  {
    MockIdDecodes(page, i);
    "mock-" + IntToString(page) + "-" + IntToString(i)
  }

  /** The picsum seed of the `i`-th mock photo of a page. */
  function MockSeed(page: int, i: nat): int {
    page * 100 + i
  }

  const PicsumPrefix := "https://picsum.photos/seed/"

  /** `https://picsum.photos/seed/${seed}/${size}`: a URL whose seed segment reads back as `seed`. */
  function PicsumUrl(seed: int, size: string): (url: string)
    ensures PicsumPrefix <= url
    ensures |size| > 0 && size[0] == '/' ==> PicsumSeed(url) == Some(seed)
  {
    var url := PicsumPrefix + IntToString(seed) + size;
    assert url[..|PicsumPrefix|] == PicsumPrefix;
    if |size| > 0 && size[0] == '/' then
      PicsumSeedRoundTrip(seed, size);
      url
    else
      url
  }

  /**
   The `i`-th mock photo of a page: its id names the page and the index, and
   both sizes show the same picture, the one seeded `page * 100 + i`.
   */
  function MockPhoto(page: int, i: nat): (photo: Photo)
    ensures DecodeMockId(photo.id) == Some((page, i as int))
    ensures PicsumSeed(photo.urls.regular) == Some(MockSeed(page, i))
    ensures PicsumSeed(photo.urls.small) == Some(MockSeed(page, i))
  {
    var seed := MockSeed(page, i);
    Photo(
      MockId(page, i),
      Urls(PicsumUrl(seed, "/800/600"), PicsumUrl(seed, "/400/300")),
      Some("Mock image"),
      Author("Mock User", "mockuser", "https://github.com/shadcn.png"))
  }

  /**
   The mock page: twelve photos, the `i`-th named `mock-${page}-${i}` and
   showing the picture seeded `page * 100 + i`, so their ids are pairwise distinct.
   */
  function MockPage(page: int): (photos: seq<Photo>)
    ensures |photos| == PerPage
    ensures forall i :: 0 <= i < PerPage ==>
      DecodeMockId(photos[i].id) == Some((page, i)) &&
      PicsumSeed(photos[i].urls.regular) == Some(MockSeed(page, i)) &&
      PicsumSeed(photos[i].urls.small) == Some(MockSeed(page, i))
    ensures forall i, j :: 0 <= i < j < |photos| ==> photos[i].id != photos[j].id
  {
    var photos := seq(PerPage, i requires 0 <= i < PerPage => MockPhoto(page, i));
    assert forall i :: 0 <= i < PerPage ==> photos[i] == MockPhoto(page, i);
    photos
  }

  /** `${n}` never contains a slash. */
  lemma IntToStringHasNoSlash(n: int)
    ensures forall k :: 0 <= k < |IntToString(n)| ==> IntToString(n)[k] != '/'
  {
    var s := IntToString(n);
    if n < 0 {
      assert forall k :: 1 <= k < |s| ==> s[k] == NatToString(-n)[k - 1];
    }
  }

  /** The index of the last `-` in `s`, if there is one. */
  function LastDash(s: string): (k: Option<nat>)
    ensures k.Some? ==> k.value < |s| && s[k.value] == '-'
    ensures k.Some? ==> forall m :: k.value < m < |s| ==> s[m] != '-'
    ensures k.None? ==> forall m :: 0 <= m < |s| ==> s[m] != '-'
  {
    if |s| == 0 then None
    else if s[|s| - 1] == '-' then Some(|s| - 1)
    else LastDash(s[..|s| - 1])
  }

  /**
   The page and the index a mock id names: after `mock-`, the text up to the
   last `-` is the page and the text after it the index, both as `${n}` renders them.
   */
  function DecodeMockId(id: string): Option<(int, int)> {
    if "mock-" <= id then
      var rest := id[5..];
      match LastDash(rest)
      case None => None
      case Some(k) =>
        var page, index := rest[..k], rest[k + 1..];
        if IsIntText(page) && IsIntText(index) then Some((ParseInt(page), ParseInt(index))) else None
    else None
  }

  /** Decoding the text of `mock-${page}-${i}` gives back the page and the index. */
  lemma MockIdDecodes(page: int, i: nat)
    ensures DecodeMockId("mock-" + IntToString(page) + "-" + IntToString(i)) == Some((page, i as int))
  {
    var pText, iText := IntToString(page), IntToString(i);
    var id := "mock-" + pText + "-" + iText;
    assert id[..5] == "mock-";
    var rest := id[5..];
    assert rest == pText + "-" + iText;
    assert rest[|pText|] == '-';
    assert forall m :: |pText| < m < |rest| ==> rest[m] == iText[m - |pText| - 1];
    assert LastDash(rest) == Some(|pText|);
    assert rest[..|pText|] == pText;
    assert rest[|pText| + 1..] == iText;
    IntToStringRoundTrip(page);
    IntToStringRoundTrip(i);
  }

  /** Two mock ids are equal only for the same page and the same index. */
  lemma MockIdInjective(p: int, i: nat, q: int, j: nat)
    requires MockId(p, i) == MockId(q, j)
    ensures p == q && i == j
  {
    assert DecodeMockId(MockId(p, i)) == Some((p, i as int));
    assert DecodeMockId(MockId(q, j)) == Some((q, j as int));
  }

  /** No mock photo of one page shares its id with a mock photo of another page. */
  lemma MockPagesDisjoint(p: int, q: int)
    requires p != q
    ensures forall i, j :: 0 <= i < PerPage && 0 <= j < PerPage ==> MockPage(p)[i].id != MockPage(q)[j].id
  {
  }

  /** The seed `page * 100 + i` names one (page, index) pair while the index stays below 100. */
  lemma MockSeedInjective(p: int, i: nat, q: int, j: nat)
    requires i < 100 && j < 100
    requires MockSeed(p, i) == MockSeed(q, j)
    ensures p == q && i == j
  {
    MockSeedDecodes(p, i);
    MockSeedDecodes(q, j);
  }

  /** The page and the index are the quotient and the remainder of the seed by 100. */
  lemma MockSeedDecodes(p: int, i: nat)
    requires i < 100
    ensures MockSeed(p, i) / 100 == p && MockSeed(p, i) % 100 == i
  {
  }

  /** The index of the first slash of `s`, or `|s|` when there is none. */
  function SegmentEnd(s: string): (k: nat)
    ensures k <= |s|
    ensures forall m :: 0 <= m < k ==> s[m] != '/'
    ensures k < |s| ==> s[k] == '/'
  {
    if |s| == 0 || s[0] == '/' then 0 else 1 + SegmentEnd(s[1..])
  }

  /** The seed a picsum seed URL names: the path segment after `/seed/`, read as an integer. */
  function PicsumSeed(url: string): Option<int> {
    if PicsumPrefix <= url then
      var rest := url[|PicsumPrefix|..];
      var segment := rest[..SegmentEnd(rest)];
      if IsIntText(segment) then Some(ParseInt(segment)) else None
    else None
  }

  /** The seed is read back from a picsum URL whatever the size that follows it. */
  lemma PicsumSeedRoundTrip(seed: int, size: string)
    requires |size| > 0 && size[0] == '/'
    ensures PicsumSeed(PicsumPrefix + IntToString(seed) + size) == Some(seed)
  {
    var url := PicsumPrefix + IntToString(seed) + size;
    var digits := IntToString(seed);
    var rest := url[|PicsumPrefix|..];
    assert rest == digits + size;
    IntToStringHasNoSlash(seed);
    assert rest[|digits|] == '/';
    assert forall m :: 0 <= m < |digits| ==> rest[m] != '/';
    assert SegmentEnd(rest) == |digits|;
    assert rest[..|digits|] == digits;
    IntToStringRoundTrip(seed);
  }

  /** No two mock photos, on the same page or on different pages, show the same picture. */
  lemma MockPicturesDistinct(p: int, i: nat, q: int, j: nat)
    requires i < PerPage && j < PerPage
    requires (p, i) != (q, j)
    ensures MockPhoto(p, i).urls.regular != MockPhoto(q, j).urls.regular
    ensures MockPhoto(p, i).urls.small != MockPhoto(q, j).urls.small
  {
    if MockSeed(p, i) == MockSeed(q, j) {
      MockSeedInjective(p, i, q, j);
    }
  }
}

=== FILE: records.dfy ===
/**
 The two record shapes stored in the realtime store (lib/instantdb.ts).
 Timestamps are milliseconds since the epoch; JavaScript holds them in a
 `number`, which is exact for every integer millisecond, so they are `int` here.
 */
module Records {

  /** One user's choice of one emoji on one image. */
  datatype Reaction = Reaction(
    id: string,
    imageId: string,
    emoji: string,
    userId: string,
    timestamp: int)

  /** A short text message on an image, with the author's display name and avatar stored alongside. */
  datatype Comment = Comment(
    id: string,
    imageId: string,
    text: string,
    userId: string,
    userName: string,
    userAvatar: string,
    timestamp: int)
}

=== FILE: text.dfy ===
/**
 How a JavaScript template literal renders an integer (`${n}`), and its inverse.
 */
module Text {

  predicate IsDigit(c: char) {
    '0' <= c <= '9'
  }

  predicate AllDigits(s: string) {
    forall i :: 0 <= i < |s| ==> IsDigit(s[i])
  }

  function DigitChar(d: int): (c: char)
    requires 0 <= d < 10
    ensures IsDigit(c) && DigitValue(c) == d
  {
    ('0' as int + d) as char
  }

  function DigitValue(c: char): int
    requires IsDigit(c)
  {
    c as int - '0' as int
  }

  /** The decimal rendering of a natural number, without leading zeros. */
  function NatToString(n: nat): (s: string)
    ensures |s| >= 1 && AllDigits(s)
    decreases n
  {
    if n < 10 then [DigitChar(n)] else NatToString(n / 10) + [DigitChar(n % 10)]
  }

  /** The value of a string of decimal digits. */
  function ParseNat(s: string): nat
    requires AllDigits(s)
  {
    if |s| == 0 then 0 else ParseNat(s[..|s| - 1]) * 10 + DigitValue(s[|s| - 1])
  }

  lemma {:induction false} ParseNatRoundTrip(n: nat)
    ensures ParseNat(NatToString(n)) == n
    decreases n
  {
    var s := NatToString(n);
    if n >= 10 {
      ParseNatRoundTrip(n / 10);
      assert s[..|s| - 1] == NatToString(n / 10);
    }
  }

  /** `${n}` for an integer: a minus sign before the digits of a negative number. */
  function IntToString(n: int): (s: string)
    ensures |s| >= 1
    ensures n >= 0 ==> AllDigits(s)
  {
    if n < 0 then "-" + NatToString(-n) else NatToString(n)
  }

  /** Text of the form `${n}` could take: digits, optionally after one minus sign. */
  predicate IsIntText(s: string) {
    |s| >= 1 && (AllDigits(s) || (s[0] == '-' && AllDigits(s[1..])))
  }

  function ParseInt(s: string): int
    requires IsIntText(s)
  {
    if s[0] == '-' then -(ParseNat(s[1..]) as int) else ParseNat(s)
  }

  lemma IntToStringRoundTrip(n: int)
    ensures IsIntText(IntToString(n)) && ParseInt(IntToString(n)) == n
  {
    var s := IntToString(n);
    if n < 0 {
      assert s[1..] == NatToString(-n);
      ParseNatRoundTrip(-n);
    } else {
      ParseNatRoundTrip(n);
    }
  }
}

=== FILE: time_order.dfy ===
/**
 The feed's order: `sort((a, b) => b.timestamp - a.timestamp)`. The comparator
 puts larger timestamps first, and `Array.prototype.sort` is stable (section
 23.1.3.30 of ECMA-262, 2023 edition), so items with equal timestamps keep
 the order they had before sorting. Both halves are stated here: `SortedDesc`
 for the order and `Ties` for stability.
 */
module TimeOrder {
  import opened Activity

  /** Newest first: no item is older than an item after it. */
  predicate SortedDesc(s: seq<FeedItem>) {
    forall i, j :: 0 <= i < j < |s| ==> s[i].Timestamp() >= s[j].Timestamp()
  }

  /** The items of `s` whose timestamp is `t`, in their order in `s`. */
  function Ties(s: seq<FeedItem>, t: int): seq<FeedItem> {
    if |s| == 0 then []
    else (if s[0].Timestamp() == t then [s[0]] else []) + Ties(s[1..], t)
  }

  /**
   A stable descending sort of `input`: newest first, and for every timestamp
   the items carrying it appear in the same relative order as in `input`.
   */
  ghost predicate IsStableSortDesc(input: seq<FeedItem>, output: seq<FeedItem>) {
    && SortedDesc(output)
    && multiset(output) == multiset(input)
    && forall t :: Ties(output, t) == Ties(input, t)
  }

  lemma {:induction false} TiesAppend(a: seq<FeedItem>, b: seq<FeedItem>, t: int)
    ensures Ties(a + b, t) == Ties(a, t) + Ties(b, t)
    decreases |a|
  {
    if |a| > 0 {
      assert (a + b)[0] == a[0] && (a + b)[1..] == a[1..] + b;
      TiesAppend(a[1..], b, t);
    } else {
      assert a + b == b;
    }
  }

  /** A sequence with no item at time `t` has no ties at `t`. */
  lemma {:induction false} TiesAbsent(s: seq<FeedItem>, t: int)
    requires forall i :: 0 <= i < |s| ==> s[i].Timestamp() != t
    ensures Ties(s, t) == []
    decreases |s|
  {
    if |s| > 0 {
      TiesAbsent(s[1..], t);
    }
  }

  /** In a newest-first sequence, any timestamp that occurs is at most the first one. */
  lemma {:induction false} TiesBelowHead(s: seq<FeedItem>, t: int)
    requires SortedDesc(s)
    requires Ties(s, t) != []
    ensures |s| > 0 && s[0].Timestamp() >= t
    decreases |s|
  {
    if s[0].Timestamp() != t {
      TiesBelowHead(s[1..], t);
    }
  }

  /**
   Inserting `x` into a newest-first sequence, after every item at least as
   new as `x`: one step of a stable insertion sort.
   */
  function Insert(s: seq<FeedItem>, x: FeedItem): (r: seq<FeedItem>)
    ensures |r| == |s| + 1
    ensures multiset(r) == multiset(s) + multiset{x}
  {
    if |s| == 0 then [x]
    else if s[0].Timestamp() >= x.Timestamp() then
      assert s == [s[0]] + s[1..];
      [s[0]] + Insert(s[1..], x)
    else [x] + s
  }

  /** Inserting into a newest-first sequence keeps it newest first. */
  lemma {:induction false} InsertSorted(s: seq<FeedItem>, x: FeedItem)
    requires SortedDesc(s)
    ensures SortedDesc(Insert(s, x))
    decreases |s|
  {
    if |s| > 0 && s[0].Timestamp() >= x.Timestamp() {
      var rest := Insert(s[1..], x);
      InsertSorted(s[1..], x);
      forall k | 0 <= k < |rest|
        ensures s[0].Timestamp() >= rest[k].Timestamp()
      {
        assert rest[k] in multiset(rest);
        assert rest[k] in multiset(s[1..]) || rest[k] == x;
      }
      var r := [s[0]] + rest;
      forall i, j | 0 <= i < j < |r|
        ensures r[i].Timestamp() >= r[j].Timestamp()
      {
        if i > 0 {
          assert r[i] == rest[i - 1] && r[j] == rest[j - 1];
        }
      }
    }
  }

  /** Inserting `x` adds it after the items already tied with it. */
  lemma {:induction false} InsertTies(s: seq<FeedItem>, x: FeedItem, t: int)
    requires SortedDesc(s)
    ensures Ties(Insert(s, x), t) == Ties(s, t) + Ties([x], t)
    decreases |s|
  {
    if |s| == 0 {
      assert Insert(s, x) == [x];
    } else if s[0].Timestamp() >= x.Timestamp() {
      SortedTail(s);
      InsertTies(s[1..], x, t);
      InsertTiesBehindHead(s, x, t);
    } else {
      InsertTiesInFront(s, x, t);
    }
  }

  /** Dropping the newest item leaves a newest-first sequence. */
  lemma SortedTail(s: seq<FeedItem>)
    requires |s| > 0 && SortedDesc(s)
    ensures SortedDesc(s[1..])
  {
    forall i, j | 0 <= i < j < |s[1..]|
      ensures s[1..][i].Timestamp() >= s[1..][j].Timestamp()
    {
      assert s[1..][i] == s[i + 1] && s[1..][j] == s[j + 1];
    }
  }

  /** The step of `InsertTies` where `x` goes behind the first item. */
  lemma InsertTiesBehindHead(s: seq<FeedItem>, x: FeedItem, t: int)
    requires |s| > 0 && s[0].Timestamp() >= x.Timestamp()
    requires Ties(Insert(s[1..], x), t) == Ties(s[1..], t) + Ties([x], t)
    ensures Ties(Insert(s, x), t) == Ties(s, t) + Ties([x], t)
  {
    var rest := Insert(s[1..], x);
    var r := Insert(s, x);
    assert r[0] == s[0] && r[1..] == rest;
    TiesCons(r, t);
    TiesCons(s, t);
    AppendAssoc(Ties([s[0]], t), Ties(s[1..], t), Ties([x], t));
  }

  /**
   Concatenation regroups freely. Stated on its own because, asserted inside
   `InsertTiesBehindHead`, the regrouping costs more than that whole proof.
   */
  lemma AppendAssoc(a: seq<FeedItem>, b: seq<FeedItem>, c: seq<FeedItem>)
    ensures a + (b + c) == (a + b) + c
  {
  }

  /** The ties of a nonempty sequence: those of its first item, then those of the rest. */
  lemma TiesCons(s: seq<FeedItem>, t: int)
    requires |s| > 0
    ensures Ties(s, t) == Ties([s[0]], t) + Ties(s[1..], t)
  {
    TiesSingleton(s[0], t);
  }

  /** The ties of a single item: the item itself, or nothing. */
  lemma TiesSingleton(x: FeedItem, t: int)
    ensures Ties([x], t) == if x.Timestamp() == t then [x] else []
  {
    assert [x][1..] == [];
  }

  /** The step of `InsertTies` where `x` is newer than every item. */
  lemma InsertTiesInFront(s: seq<FeedItem>, x: FeedItem, t: int)
    requires SortedDesc(s)
    requires |s| > 0 && s[0].Timestamp() < x.Timestamp()
    ensures Ties(Insert(s, x), t) == Ties(s, t) + Ties([x], t)
  {
    assert Insert(s, x) == [x] + s;
    TiesAppend([x], s, t);
    TiesSingleton(x, t);
    if t == x.Timestamp() {
      assert forall i :: 0 <= i < |s| ==> s[i].Timestamp() <= s[0].Timestamp();
      TiesAbsent(s, t);
    }
  }

  /** Stable insertion sort, newest first: each item goes after the items that preceded it with the same time. */
  function StableSortDesc(s: seq<FeedItem>): (r: seq<FeedItem>)
    ensures |r| == |s|
    ensures IsStableSortDesc(s, r)
    decreases |s|
  {
    if |s| == 0 then []
    else
      var init := s[..|s| - 1];
      var last := s[|s| - 1];
      var sortedInit := StableSortDesc(init);
      assert s == init + [last];
      InsertSorted(sortedInit, last);
      assert forall t :: Ties(Insert(sortedInit, last), t) == Ties(s, t) by {
        forall t ensures Ties(Insert(sortedInit, last), t) == Ties(s, t) {
          InsertTies(sortedInit, last, t);
          TiesAppend(init, [last], t);
        }
      }
      Insert(sortedInit, last)
  }

  /**
   A stable descending sort is unique: two newest-first sequences with the same
   ties at every timestamp are equal. So every stable sort, whatever its
   algorithm, yields the same feed.
   */
  lemma {:induction false} StableSortUnique(a: seq<FeedItem>, b: seq<FeedItem>)
    requires SortedDesc(a) && SortedDesc(b)
    requires forall t :: Ties(a, t) == Ties(b, t)
    ensures a == b
    decreases |a|
  {
    if |a| > 0 {
      assert Ties(a, a[0].Timestamp()) == [a[0]] + Ties(a[1..], a[0].Timestamp());
      TiesBelowHead(b, a[0].Timestamp());
    }
    if |b| > 0 {
      assert Ties(b, b[0].Timestamp()) == [b[0]] + Ties(b[1..], b[0].Timestamp());
      TiesBelowHead(a, b[0].Timestamp());
    }
    if |a| > 0 {
      var m := a[0].Timestamp();
      var n := b[0].Timestamp();
      assert m == n;
      assert a[0] == Ties(a, m)[0] == Ties(b, m)[0] == b[0];
      forall t ensures Ties(a[1..], t) == Ties(b[1..], t) {
        var h := if m == t then [a[0]] else [];
        assert Ties(a, t) == h + Ties(a[1..], t);
        assert Ties(b, t) == h + Ties(b[1..], t);
        assert Ties(a[1..], t) == Ties(a, t)[|h|..];
        assert Ties(b[1..], t) == Ties(b, t)[|h|..];
      }
      StableSortUnique(a[1..], b[1..]);
      assert a == [a[0]] + a[1..];
      assert b == [b[0]] + b[1..];
    }
  }

  /**
   Where an item goes in a newest-first sequence: scanning back from the end,
   past the items strictly older than it.
   */
  method FindSlot(sorted: seq<FeedItem>, x: FeedItem) returns (j: nat)
    requires SortedDesc(sorted)
    ensures j <= |sorted|
    ensures forall k :: 0 <= k < j ==> sorted[k].Timestamp() >= x.Timestamp()
    ensures forall k :: j <= k < |sorted| ==> sorted[k].Timestamp() < x.Timestamp()
  {
    j := |sorted|;
    while j > 0 && sorted[j - 1].Timestamp() < x.Timestamp()
      invariant 0 <= j <= |sorted|
      invariant forall k :: j <= k < |sorted| ==> sorted[k].Timestamp() < x.Timestamp()
    {
      j := j - 1;
    }
  }

  /** One step of the insertion sort: the item is spliced in at the slot `FindSlot` finds. */
  method InsertInto(sorted: seq<FeedItem>, x: FeedItem) returns (r: seq<FeedItem>)
    requires SortedDesc(sorted)
    ensures r == Insert(sorted, x)
  {
    var j := FindSlot(sorted, x);
    InsertAt(sorted, x, j);
    r := sorted[..j] + [x] + sorted[j..];
  }

  /** The imperative insertion sort over the whole input. */
  method SortByTimestampDesc(items: seq<FeedItem>) returns (sorted: seq<FeedItem>)
    ensures sorted == StableSortDesc(items)
    ensures IsStableSortDesc(items, sorted)
  {
    sorted := [];
    var i := 0;
    while i < |items|
      invariant 0 <= i <= |items|
      invariant sorted == StableSortDesc(items[..i])
    {
      StableSortExtend(items, i);
      sorted := InsertInto(sorted, items[i]);
      i := i + 1;
    }
    assert items[..i] == items;
  }

  /** Sorting one more item of the input inserts it into the sorted prefix. */
  lemma StableSortExtend(items: seq<FeedItem>, i: nat)
    requires i < |items|
    ensures StableSortDesc(items[..i + 1]) == Insert(StableSortDesc(items[..i]), items[i])
  {
    var prefix := items[..i + 1];
    assert prefix[..i] == items[..i] && prefix[i] == items[i];
  }

  /** Where the scan stops is where `Insert` puts the item. */
  lemma {:induction false} InsertAt(s: seq<FeedItem>, x: FeedItem, j: nat)
    requires j <= |s|
    requires forall k :: 0 <= k < j ==> s[k].Timestamp() >= x.Timestamp()
    requires forall k :: j <= k < |s| ==> s[k].Timestamp() < x.Timestamp()
    ensures Insert(s, x) == s[..j] + [x] + s[j..]
    decreases j
  {
    if j == 0 {
      assert s[..0] + [x] + s[0..] == [x] + s;
    } else {
      var tail := s[1..];
      InsertAt(tail, x, j - 1);
      SpliceCons(s, x, j);
    }
  }

  /** Splicing `x` in at `j` is splicing it into the tail at `j - 1` behind the first item. */
  lemma SpliceCons(s: seq<FeedItem>, x: FeedItem, j: nat)
    requires 0 < j <= |s|
    ensures [s[0]] + (s[1..][..j - 1] + [x] + s[1..][j - 1..]) == s[..j] + [x] + s[j..]
  {
    assert s[1..][..j - 1] == s[1..j];
    assert s[1..][j - 1..] == s[j..];
    assert s[..j] == [s[0]] + s[1..j];
  }
}
